=== FILE: README.md ===
# JSON-Lines manifest tools of VoxCPM, modelled in Dafny

This project models two command-line scripts that prepare the JSON-Lines manifests of a text-to-speech training set. Each manifest has one JSON record per line.

- **Duration backfill** (`scripts/add_duration_to_jsonl.py`). It reads a manifest and gives each record a `"duration"` field, unless the record already holds a positive one. The audio path is looked up under a priority list of keys: the caller's key, then `"audio"`, `"wav"`, `"path"`, `"audio_path"`, `"file"`. A path held as an object with a `"path"` key is unwrapped. The duration comes from the audio file's header. It is the sentinel `-1.0` when the path is missing, falsy or does not exist, or when the file cannot be read. A line that is not JSON is copied out stripped. The lines are processed by a pool of at most 16 workers, collected in completion order, sorted back by input index and written one per line.
- **Merge** (`scripts/merge_jsonl.py`). It writes the non-blank lines of two manifests, one after the other, to one output manifest. Each entry is parsed and re-serialised, with its `"audio"` value made absolute. It counts the entries taken from each file. The script's `main` first checks that both inputs exist.

Layout:

- `manifest.dfy` (module `Manifest`) holds what the two scripts share:
  - decoded JSON values and Python truthiness;
  - the JSON codec, as a pair of abstract functions;
  - Python's `str.strip()`, over the characters `str.isspace` accepts;
  - substring search;
  - a `Disk` class whose `files` map is the text files, as the lines `readlines()` returns.
- `index_sort.dfy` (module `IndexSort`) is the `results.sort(key=index)` step. It also proves that the sort returns each result to its input position.
- `add_duration.dfy` (module `AddDuration`) is the backfill: `get_audio_duration`, `process_line`, and the scatter, sort and write part of `main`.
- `merge_jsonl.dfy` (module `MergeJsonl`) is the merge: `merge_jsonl_files` and the existence checks of `main`.

Python behaviour the model keeps:

- `json.loads` gives an `int` for a number without fraction or exponent and a `float` otherwise; both are kept apart.
- `True > 0` holds, so a `"duration": true` counts as present.
- Comparing a string, list or object with `0` raises `TypeError`.
- A parsed line that is not an object makes `process_line` raise `TypeError`. Only `JSONDecodeError` is caught there.
- In the merge, `"audio" in entry` means different things by type. On a list it is membership. On a string it is substring search, and a hit then fails at the subscript. On a number, boolean or null the test itself raises.
- `os.path.exists` is `os.stat` with `OSError` and `ValueError` turned into `False`. A string is looked up as a path. An integer, and so a boolean, is taken as a file descriptor, and `os.stat` raises `OverflowError` when it lies outside the range of a C `int`. A float, list or object makes `os.stat` raise `TypeError`. These exceptions escape `process_line`.
- `os.path.abspath` of a non-string raises `TypeError`.
- An exception in either script is not caught. The backfill then writes nothing. The merge leaves whatever it had already written.

## Model

| member | source | states |
|---|---|---|
| Manifest.Strip | scripts/add_duration_to_jsonl.py:42 | `line.strip()` is never longer than the line, and a non-empty result starts and ends with a non-whitespace character |
| Manifest.StripRemovesSurroundingSpace | scripts/add_duration_to_jsonl.py:42 | `line.strip()` gives "" exactly for an all-whitespace line; otherwise it is the contiguous part of the line that starts after the leading whitespace and is followed only by whitespace, and it starts and ends with a non-whitespace character |
| Manifest.Truthy | scripts/add_duration_to_jsonl.py:57 | `if audio_path` is false exactly for null, false, 0, 0.0, "", [] and {} |
| Manifest.ContainsSubstring | scripts/merge_jsonl.py:46 | `"audio" in s` on a string: "audio" occurs at some position of the string |
| Manifest.SubstringOccurrence | scripts/merge_jsonl.py:46 | `t in s` holds when `t` occurs at a given position of `s`, and only when `s` is at least as long as `t` |
| Manifest.Disk.Create | scripts/add_duration_to_jsonl.py:116 | `open(path, "w")` creates or truncates that file to empty and changes no other file (also merge_jsonl.py line 34) |
| Manifest.Disk.Append | scripts/add_duration_to_jsonl.py:118 | a write appends one line to the end of that open file and changes no other file (also merge_jsonl.py line 49) |
| Manifest.TrimStartDropsLeadingSpace | scripts/merge_jsonl.py:39 | the leading part of a line that `strip()` removes is all whitespace and is the whole leading run |
| Manifest.TrimEndDropsTrailingSpace | scripts/merge_jsonl.py:39 | the trailing part that `strip()` removes is all whitespace and is the whole trailing run |
| Manifest.StripKeepsStripped | scripts/add_duration_to_jsonl.py:67 | a line without surrounding whitespace is returned unchanged by `strip()` |
| Manifest.StripIdempotent | scripts/add_duration_to_jsonl.py:67 | stripping an already stripped line changes nothing |
| IndexSort.Insert | scripts/add_duration_to_jsonl.py:112 | inserting one result into a list sorted by index gives a sorted permutation with that result added |
| IndexSort.SortByIndex | scripts/add_duration_to_jsonl.py:112 | `results.sort(key=index)` returns a permutation of the results (same multiset, same length) in non-decreasing index order |
| IndexSort.InsertKeepsStrict | scripts/add_duration_to_jsonl.py:112 | inserting a result whose index is new keeps the indices strictly increasing |
| IndexSort.SortDistinctIsStrict | scripts/add_duration_to_jsonl.py:104-112 | results with distinct indices (one future per line) sort into strictly increasing index order |
| IndexSort.SortedResultsAreInInputOrder | scripts/add_duration_to_jsonl.py:104-112 | n results with strictly increasing indices, all below n, sit each at the position equal to its index |
| AddDuration.CandidateKeys | scripts/add_duration_to_jsonl.py:50 | the audio path keys tried in order: the caller's key, then "audio", "wav", "path", "audio_path", "file" |
| AddDuration.FirstPresent | scripts/add_duration_to_jsonl.py:50-55 | the key search stops at the first candidate key the record holds; no earlier key is held; it finds none exactly when the record holds no candidate key |
| AddDuration.Unwrap | scripts/add_duration_to_jsonl.py:53-54 | an object holding "path" stands for that nested value; any other value stands for itself |
| AddDuration.AudioPathOf | scripts/add_duration_to_jsonl.py:49-55 | there is no audio path exactly when the record holds no candidate key; otherwise the path is the unwrapped value of the first candidate key the record holds |
| AddDuration.DescriptorExists | scripts/add_duration_to_jsonl.py:57 | `os.path.exists` on an integer raises OverflowError exactly when it lies outside the range of a C int; inside that range it is true exactly for a non-negative, open descriptor |
| AddDuration.PathExists | scripts/add_duration_to_jsonl.py:57 | `os.path.exists` looks a string up as a path and an integer, or a boolean as 0 or 1, up as a file descriptor; it raises TypeError on None, a float, a list or an object; its only other failure is OverflowError on an integer out of range |
| AddDuration.AudioDuration | scripts/add_duration_to_jsonl.py:29-36 | get_audio_duration gives the duration soundfile reports, or -1.0 when soundfile raises |
| AddDuration.LookedUpDuration | scripts/add_duration_to_jsonl.py:57-62 | the duration is the sentinel -1.0 when the path is missing or falsy, or does not exist; it is get_audio_duration's result when the path exists; it fails, with the existence test's exception, exactly when a truthy path makes that test raise; any other duration was reported by soundfile for an existing path |
| AddDuration.HasDuration | scripts/add_duration_to_jsonl.py:45 | the duration test is true exactly for True or a positive number; it raises TypeError exactly for a string, list or object value; otherwise it is false |
| AddDuration.BackfillRecord | scripts/add_duration_to_jsonl.py:42-64 | a record succeeds exactly when it is an object, its duration test does not raise, and, unless the test is true, the audio lookup does not raise; a non-object or a raising duration test raises TypeError, and a raising lookup raises the existence test's exception; a positive duration keeps the record unchanged; otherwise the keys gain "duration", every other field is kept, and the duration is the looked-up one for the first candidate key's path |
| AddDuration.BackfillLine | scripts/add_duration_to_jsonl.py:39-67 | a line that does not parse comes back stripped; a parsed value succeeds exactly when its record backfill does, giving the serialised record, and otherwise fails with that error; JSONDecodeError never escapes |
| AddDuration.FindAudioPath | scripts/add_duration_to_jsonl.py:49-55 | the loop over the candidate keys yields the unwrapped value of the first key present, and finds a path exactly when some candidate key is present |
| AddDuration.ProcessLine | scripts/add_duration_to_jsonl.py:39-67 | process_line returns the stripped line for malformed JSON, the serialised backfilled record otherwise, and lets TypeError and OverflowError escape |
| AddDuration.BackfillAll | scripts/add_duration_to_jsonl.py:103-112 | processing all lines succeeds exactly when every line does, and then gives one output per input line, each the result for the line at the same position; a failure is the exception of some input line |
| AddDuration.WorkerCount | scripts/add_duration_to_jsonl.py:94 | the pool has between 1 and 16 workers, never more than the CPU count, and is the CPU count or 16 |
| AddDuration.IsCompletionOrder | scripts/add_duration_to_jsonl.py:107 | an order `as_completed` may yield the futures in: n distinct line indices, all below n |
| AddDuration.CompletionOrderCoversEveryLine | scripts/add_duration_to_jsonl.py:104-108 | a completion order holds every line index, so every line's result is collected |
| AddDuration.Gather | scripts/add_duration_to_jsonl.py:102-112 | whatever order the futures complete in, the sorted results are, position by position, the input index with process_line's output for that input line; a worker's exception is raised exactly when some line raises, and it is the exception process_line raises on some input line |
| AddDuration.SortRestoresInputOrder | scripts/add_duration_to_jsonl.py:104-112 | one result per input line, appended in any order, sorts back so that position i holds line i's result |
| AddDuration.WriteResults | scripts/add_duration_to_jsonl.py:116-118 | the output file holds exactly one line per result, in list order, each followed by a newline; no other file changes |
| AddDuration.AudioKeyArgument | scripts/add_duration_to_jsonl.py:81 | the third argument names the audio key, and "wav" is used when it is absent |
| AddDuration.Run | scripts/add_duration_to_jsonl.py:70-118 | fewer than two arguments is a usage error and a missing input is reported, both with exit status 1 and nothing written; a raising line crashes the run with that line's exception and nothing written; otherwise the output file holds line i's result on line i, and only the output file changes |
| AddDuration.SkipLeavesRecordUntouched | scripts/add_duration_to_jsonl.py:44-46 | a record with a positive duration comes back unchanged, whatever the audio files are (no lookup is made) |
| AddDuration.AudioKeyWins | scripts/add_duration_to_jsonl.py:50-52 | the caller's key, when present, supplies the audio path |
| AddDuration.WavBeatsAudioByDefault | scripts/add_duration_to_jsonl.py:50-52 | with the default key, "wav" wins over "audio" |
| AddDuration.FirstPresentIgnoresOtherKeys | scripts/add_duration_to_jsonl.py:50-55 | changing a key that is not a candidate does not change which candidate is found |
| AddDuration.LaterKeysNotConsulted | scripts/add_duration_to_jsonl.py:55 | after the first present key, later keys are never consulted, even when its value is empty |
| AddDuration.EmptyFirstKeyGivesSentinel | scripts/add_duration_to_jsonl.py:50-62 | an empty "wav" value gives the sentinel even when "audio" names a readable file |
| AddDuration.ReadableAudioScenario | scripts/add_duration_to_jsonl.py:57-59 | a readable file's duration is written and the other fields stay |
| AddDuration.MissingAudioScenario | scripts/add_duration_to_jsonl.py:60-62 | a path that does not exist gives the sentinel |
| AddDuration.UnstatablePathRaises | scripts/add_duration_to_jsonl.py:57 | a truthy list, object without "path", or float audio value makes the record raise TypeError |
| AddDuration.UnstatablePathExamples | scripts/add_duration_to_jsonl.py:57 | `{"wav": ["a.wav"]}`, `{"wav": {"sr": 16000}}` and `{"wav": 3.5}` each raise TypeError |
| AddDuration.HugeDescriptorOverflows | scripts/add_duration_to_jsonl.py:57 | an integer audio value beyond the range of a C int makes the record raise OverflowError |
| AddDuration.MalformedLinePassesThrough | scripts/add_duration_to_jsonl.py:65-67 | a line that is not JSON is returned stripped |
| AddDuration.BlankLineGivesEmptyLine | scripts/add_duration_to_jsonl.py:42-67 | a blank line, which json.loads rejects, becomes an empty output line |
| AddDuration.RecordBackfillIdempotent | scripts/add_duration_to_jsonl.py:44-64 | backfilling a backfilled record changes nothing, when the caller's key is not "duration" |
| AddDuration.LineBackfillIdempotent | scripts/add_duration_to_jsonl.py:39-67 | running process_line on its own output returns that output, given that the one record the first run writes reads back from its `json.dumps` text |
| MergeJsonl.Entries | scripts/merge_jsonl.py:38-41 | the entries of a manifest are its stripped lines with the blank ones skipped; there are no more of them than lines, and none is empty |
| MergeJsonl.EntriesOfConcatenation | scripts/merge_jsonl.py:38-41 | the entries of two manifests read in turn are the entries of the first followed by those of the second |
| MergeJsonl.BlankLineSkipped | scripts/merge_jsonl.py:39-41 | a blank line anywhere contributes no entry |
| MergeJsonl.RewriteAudio | scripts/merge_jsonl.py:46-47 | on an object only "audio" changes, and only when present, to the absolute path; a non-string "audio" raises TypeError; a list raises exactly when it holds "audio", a string exactly when it contains "audio", and otherwise either passes through unchanged; on a number, boolean or null the test raises |
| MergeJsonl.ConvertEntry | scripts/merge_jsonl.py:43-49 | an entry that is not JSON raises JSONDecodeError; a parsed entry converts exactly when its audio rewrite succeeds, into the rewritten value serialised plus a newline, and otherwise raises TypeError |
| MergeJsonl.ConvertFile | scripts/merge_jsonl.py:37-50 | a pass writes at most one line per input line |
| MergeJsonl.Step | scripts/merge_jsonl.py:39-50 | one more line of a pass writes at most one more line |
| MergeJsonl.PassWritesLeadingEntries | scripts/merge_jsonl.py:37-50 | a pass over one input writes, in order, the conversions of its leading entries; it writes all of them unless an entry raises, and then it stops at the first entry that raises, with that entry's error |
| MergeJsonl.FailureIsFinal | scripts/merge_jsonl.py:43-47 | once a line has raised, the lines after it change nothing |
| MergeJsonl.PassOverConcatenation | scripts/merge_jsonl.py:37-70 | a pass over two inputs read in turn is the pass over the first followed, when it did not raise, by the pass over the second |
| MergeJsonl.ThenWritesAll | scripts/merge_jsonl.py:37-70 | two passes, the second run only if the first did not raise, succeed exactly when every entry of both inputs converts, and then write every conversion in order, one per entry of each input; otherwise they stop at the first entry that raises, with its error |
| MergeJsonl.Merge | scripts/merge_jsonl.py:27-73 | a merge that does not raise reports a total equal to the sum of the two counts and to the number of lines written; it writes at most one line per input line |
| MergeJsonl.MergeCountsEntries | scripts/merge_jsonl.py:27-73 | the merge succeeds exactly when every entry of both files converts; then it writes all conversions, file 1 first, and reports as counts each file's number of entries and their sum; a merge that raises wrote the conversions of the entries before the first entry that raises, and raises that entry's error |
| MergeJsonl.MergeIsPassOverConcatenation | scripts/merge_jsonl.py:34-73 | the merge writes what one pass over the two inputs read in turn writes, and raises exactly when that pass does |
| MergeJsonl.CopyEntries | scripts/merge_jsonl.py:37-50 | the loop over one input appends the pass's lines to the output file, adds their number to the counter and reports the exception that ended it, if any; no other file changes |
| MergeJsonl.CopyBothFiles | scripts/merge_jsonl.py:37-72 | after the two loops the output file holds what it held before followed by what the merge writes; the counts or the exception returned are those of the merge; no other file changes |
| MergeJsonl.MergeJsonlFiles | scripts/merge_jsonl.py:17-73 | the output file is created and then holds exactly what the merge writes, including the part written before an exception; the counts or the exception are those of the merge; no other file changes; when the output is file 1, that file is truncated before it is read, so the merge is the one over an empty first file |
| MergeJsonl.OutputOverFirstInput | scripts/merge_jsonl.py:34-37 | a merge whose output is file 1 writes only the conversions of file 2 and counts no entry for file 1 |
| MergeJsonl.RunMerge | scripts/merge_jsonl.py:82-113 | a missing first or second input is reported, in that order, and nothing is written; otherwise the merge runs as above, file 1 included as output |

## Left out

- Console output is not modelled: the warnings, progress messages, the tqdm progress bar and the merge summary. The merge's counts are printed, not returned; `MergeJsonlFiles` returns them as the value it reports.
- The JSON library is abstract (`JsonCodec`). Dict key order, NaN, infinities and the exact text of `json.dumps` are not modelled; floats are exact reals. `LineBackfillIdempotent` assumes only that the record it writes reads back from its one-line `json.dumps` text. A float `json.dumps` cannot print exactly is outside that assumption.
- `soundfile.info`, `os.path.abspath`, the existence of a path string (a file or a directory) and whether a file descriptor is open are abstract functions. So is `multiprocessing.cpu_count()`, passed in as a parameter.
- The worker pool's concurrency is reduced to a completion order, passed in as a parameter. The number of workers is computed but does not affect the results.
- The line-counting pass of the backfill only sizes the progress bar, so it is left out.
- The `soundfile` import check at start-up is left out.
- argparse's own usage errors in the merge are left out.
- `os.makedirs` of the merge's output directory is left out. The disk has no directories.
- Text encoding and file-reading errors are left out. A file is the list of lines `readlines()` returns.
- MergeJsonlFiles: requires the output path to differ from file 2. File 2 is read while the output, the same file, is being written through Python's write buffer; what the reads see depends on when the buffer is flushed, which the code does not determine.
- RunMerge: requires the output path to differ from file 2 when both inputs exist, for the same reason. A run with a missing input is modelled whatever the output path.
- The dataset loader and the Hugging Face upload scripts in the same directory are not part of this model.

=== FILE: add_duration.dfy ===
/** The duration backfill of scripts/add_duration_to_jsonl.py: every line of a JSON-Lines
    manifest is turned into a line whose record carries a "duration" field, computed from the
    audio file it names unless it already holds a positive one; the lines go through a worker
    pool and are put back in input order before they are written. */
module AddDuration {
  import opened Manifest
  import opened IndexSort

  /** The file system and soundfile, left abstract: whether a path string names something that
      exists (a file or a directory), whether an integer is an open file descriptor, and
      `soundfile.info(...).duration` on the path value as the record holds it (None where
      soundfile raises). */
  datatype AudioFiles = AudioFiles(pathExists: string -> bool, isOpenDescriptor: int -> bool, info: Json -> Option<real>)

  /** The duration written when the audio file is missing or unreadable. */
  const Sentinel: real := -1.0

  const DefaultAudioKey: string := "wav"

  /** The cap on the size of the worker pool. */
  const MaxWorkers: nat := 16

  /** The range of a C `int`, which `os.stat` demands of a file descriptor. */
  const IntMin: int := -0x8000_0000
  const IntMax: int := 0x7FFF_FFFF

  /** The keys tried for the audio path, in priority order: the caller's key first. */
  function CandidateKeys(audioKey: string): seq<string> {
    [audioKey, "audio", "wav", "path", "audio_path", "file"]
  }

  /** The position of the first key of `keys` that `record` holds, if any. */
  function FirstPresent(keys: seq<string>, record: map<string, Json>): (r: Option<nat>)
    ensures r.Some? ==> r.value < |keys| && keys[r.value] in record
    ensures r.Some? ==> forall j :: 0 <= j < r.value ==> keys[j] !in record
    ensures r.None? <==> forall j :: 0 <= j < |keys| ==> keys[j] !in record
  {
    if keys == [] then
      None
    else if keys[0] in record then
      Some(0)
    else
      match FirstPresent(keys[1..], record)
      case None => None
      case Some(i) => Some(i + 1)
  }

  /** A value that is an object with a "path" key stands for that nested value; any other value
      stands for itself. */
  function Unwrap(v: Json): (r: Json)
    ensures v.JObject? && "path" in v.fields ==> r == v.fields["path"]
    ensures !(v.JObject? && "path" in v.fields) ==> r == v
  {
    if v.JObject? && "path" in v.fields then v.fields["path"] else v
  }

  /** The audio path of a record: the (unwrapped) value of the first candidate key it holds,
      whatever that value is; none when it holds no candidate key. */
  function AudioPathOf(record: map<string, Json>, audioKey: string): (r: Option<Json>)
    ensures r.None? <==> forall k :: k in CandidateKeys(audioKey) ==> k !in record
    ensures r.Some? ==>
              exists i :: 0 <= i < |CandidateKeys(audioKey)|
                && CandidateKeys(audioKey)[i] in record
                && (forall j :: 0 <= j < i ==> CandidateKeys(audioKey)[j] !in record)
                && r.value == Unwrap(record[CandidateKeys(audioKey)[i]])
  {
    var keys := CandidateKeys(audioKey);
    match FirstPresent(keys, record)
    case None => None
    case Some(i) => Some(Unwrap(record[keys[i]]))
  }

  /** `os.stat` on an integer: it stats that file descriptor, raising OverflowError outside the
      range of a C int; a negative or closed descriptor makes `exists` false. */
  function DescriptorExists(fd: int, audio: AudioFiles): (r: Result<bool>)
    ensures r.Failure? <==> fd < IntMin || fd > IntMax
    ensures r.Failure? ==> r.error == OverflowError
    ensures IntMin <= fd <= IntMax ==> r == Success(0 <= fd && audio.isOpenDescriptor(fd))
  {
    if fd < IntMin || fd > IntMax then Failure(OverflowError)
    else Success(0 <= fd && audio.isOpenDescriptor(fd))
  }

  /** `os.path.exists(path)`, which is `os.stat` with OSError and ValueError turned into False.
      A string is looked up as a path, an integer (and a boolean, which is one) as a file
      descriptor; `os.stat` raises TypeError on a float, a list, an object or None. */
  function PathExists(path: Json, audio: AudioFiles): (r: Result<bool>)
    ensures path.JString? ==> r == Success(audio.pathExists(path.s))
    ensures path.JInt? ==> r == DescriptorExists(path.i, audio)
    ensures path.JBool? ==> r == DescriptorExists(if path.b then 1 else 0, audio)
    ensures path.JNull? || path.JFloat? || path.JArray? || path.JObject? ==> r == Failure(TypeError)
    ensures r.Failure? ==> r.error == TypeError || r.error == OverflowError
    ensures r.Failure? && r.error == OverflowError ==> path.JInt? && (path.i < IntMin || path.i > IntMax)
  {
    match path
    case JString(s) => Success(audio.pathExists(s))
    case JInt(i) => DescriptorExists(i, audio)
    case JBool(b) => DescriptorExists(if b then 1 else 0, audio)
    case _ => Failure(TypeError)
  }

  /** get_audio_duration: the duration soundfile reports, or the sentinel when it raises. */
  function AudioDuration(path: Json, audio: AudioFiles): (d: real)
    ensures audio.info(path).Some? ==> d == audio.info(path).value
    ensures audio.info(path).None? ==> d == Sentinel
  {
    match audio.info(path)
    case Some(d) => d
    case None => Sentinel
  }

  /** `if audio_path and os.path.exists(audio_path)`: the duration given to a record that has
      none. The sentinel when there is no path, it is falsy or it does not exist; what
      get_audio_duration reports when it exists; the existence test's exception otherwise. */
  function LookedUpDuration(path: Option<Json>, audio: AudioFiles): (r: Result<real>)
    ensures path.None? || !Truthy(path.value) ==> r == Success(Sentinel)
    ensures path.Some? && Truthy(path.value) ==>
              (r.Failure? <==> PathExists(path.value, audio).Failure?)
    ensures r.Failure? ==> path.Some? && Truthy(path.value) && r == Failure(PathExists(path.value, audio).error)
    ensures path.Some? && Truthy(path.value) && PathExists(path.value, audio) == Success(false) ==>
              r == Success(Sentinel)
    ensures path.Some? && Truthy(path.value) && PathExists(path.value, audio) == Success(true) ==>
              r == Success(AudioDuration(path.value, audio))
    ensures r.Success? && r.value != Sentinel ==>
              path.Some? && PathExists(path.value, audio) == Success(true) && audio.info(path.value) == Some(r.value)
  {
    if path.None? || !Truthy(path.value) then
      Success(Sentinel)
    else
      match PathExists(path.value, audio)
      case Failure(e) => Failure(e)
      case Success(false) => Success(Sentinel)
      case Success(true) => Success(AudioDuration(path.value, audio))
  }

  /** `"duration" in data and data["duration"] is not None and data["duration"] > 0`: true for a
      positive number or True (Python compares True as 1); TypeError when comparing a string,
      list or object with 0; false otherwise. */
  function HasDuration(record: map<string, Json>): (r: Result<bool>)
    ensures r == Success(true) <==>
              "duration" in record &&
              (record["duration"] == JBool(true)
               || (record["duration"].JInt? && record["duration"].i > 0)
               || (record["duration"].JFloat? && record["duration"].f > 0.0))
    ensures r.Failure? <==>
              "duration" in record &&
              (record["duration"].JString? || record["duration"].JArray? || record["duration"].JObject?)
    ensures r.Failure? ==> r.error == TypeError
  {
    if "duration" !in record then
      Success(false)
    else
      match record["duration"]
      case JNull => Success(false)
      case JBool(b) => Success(b)
      case JInt(i) => Success(i > 0)
      case JFloat(f) => Success(f > 0.0)
      case _ => Failure(TypeError)
  }

  /** What process_line does to a parsed value: a non-object raises TypeError (at the `in` test,
      a subscript or the assignment, whichever comes first), a record with a positive duration is
      kept as it is, a record whose audio path `os.path.exists` rejects raises, and any other
      record gets "duration" set and nothing else changed. */
  function BackfillRecord(data: Json, audioKey: string, audio: AudioFiles): (r: Result<map<string, Json>>)
    ensures r.Success? <==>
              && data.JObject?
              && HasDuration(data.fields).Success?
              && (HasDuration(data.fields).value || LookedUpDuration(AudioPathOf(data.fields, audioKey), audio).Success?)
    ensures r.Failure? ==> r.error == TypeError || r.error == OverflowError
    ensures r.Failure? && !(data.JObject? && HasDuration(data.fields).Success?) ==> r.error == TypeError
    ensures r.Failure? && data.JObject? && HasDuration(data.fields) == Success(false) ==>
              r == Failure(LookedUpDuration(AudioPathOf(data.fields, audioKey), audio).error)
    ensures data.JObject? && HasDuration(data.fields) == Success(true) ==> r == Success(data.fields)
    ensures r.Success? ==> r.value.Keys == data.fields.Keys + {"duration"}
    ensures r.Success? ==> forall k :: k in data.fields && k != "duration" ==> r.value[k] == data.fields[k]
    ensures (r.Success? && HasDuration(data.fields) == Success(false))
              ==> r.value["duration"] == JFloat(LookedUpDuration(AudioPathOf(data.fields, audioKey), audio).value)
  {
    if !data.JObject? then
      Failure(TypeError)
    else
      match HasDuration(data.fields)
      case Failure(e) => Failure(e)
      case Success(true) => Success(data.fields)
      case Success(false) =>
        match LookedUpDuration(AudioPathOf(data.fields, audioKey), audio)
        case Failure(e) => Failure(e)
        case Success(d) => Success(data.fields["duration" := JFloat(d)])
  }

  /** process_line as a function: the stripped line if it is not JSON, otherwise the backfilled
      record serialised; a TypeError or OverflowError escapes. */
  function BackfillLine(line: string, audioKey: string, codec: JsonCodec, audio: AudioFiles): (r: Result<string>)
    ensures codec.loads(Strip(line)).None? ==> r == Success(Strip(line))
    ensures codec.loads(Strip(line)).Some? ==>
              var record := BackfillRecord(codec.loads(Strip(line)).value, audioKey, audio);
              && (r.Success? <==> record.Success?)
              && (r.Success? ==> r.value == codec.dumps(JObject(record.value)))
              && (r.Failure? ==> r.error == record.error)
    ensures r.Failure? ==> r.error != JsonDecodeError
  {
    match codec.loads(Strip(line))
    case None => Success(Strip(line))
    case Some(data) =>
      match BackfillRecord(data, audioKey, audio)
      case Failure(e) => Failure(e)
      case Success(record) => Success(codec.dumps(JObject(record)))
  }

  /** The key search of process_line: try each candidate key in turn and stop at the first the
      record holds, unwrapping a nested "path". */
  method FindAudioPath(data: map<string, Json>, audioKey: string) returns (audioPath: Option<Json>)
    ensures audioPath == AudioPathOf(data, audioKey)
    ensures audioPath.Some? <==> exists k :: k in CandidateKeys(audioKey) && k in data
  {
    var keys := CandidateKeys(audioKey);
    audioPath := None;
    var i := 0;
    while i < |keys|
      invariant 0 <= i <= |keys|
      invariant forall j :: 0 <= j < i ==> keys[j] !in data
    {
      if keys[i] in data {
        var v := data[keys[i]];
        if v.JObject? && "path" in v.fields {
          v := v.fields["path"];
        }
        audioPath := Some(v);
        break;
      }
      i := i + 1;
    }
  }

  /** process_line: the line the worker returns for one input line. */
  method ProcessLine(line: string, audioKey: string, codec: JsonCodec, audio: AudioFiles) returns (r: Result<string>)
    ensures r == BackfillLine(line, audioKey, codec, audio)
  {
    var parsed := codec.loads(Strip(line));
    if parsed.None? {
      return Success(Strip(line));
    }
    var data := parsed.value;
    if !data.JObject? {
      return Failure(TypeError);
    }
    var skip := HasDuration(data.fields);
    if skip.Failure? {
      return Failure(skip.error);
    }
    if skip.value {
      return Success(codec.dumps(data));
    }
    var audioPath := FindAudioPath(data.fields, audioKey);
    var duration := Sentinel;
    if audioPath.Some? && Truthy(audioPath.value) {
      var found := PathExists(audioPath.value, audio);
      if found.Failure? {
        return Failure(found.error);
      }
      if found.value {
        duration := AudioDuration(audioPath.value, audio);
      }
    }
    var fields := data.fields["duration" := JFloat(duration)];
    return Success(codec.dumps(JObject(fields)));
  }

  /** `map(process_line, lines)`: fails when some line fails, and otherwise has one output line
      per input line, in input order. */
  function BackfillAll(lines: seq<string>, audioKey: string, codec: JsonCodec, audio: AudioFiles): (r: Result<seq<string>>)
    ensures r.Success? <==> forall i :: 0 <= i < |lines| ==> BackfillLine(lines[i], audioKey, codec, audio).Success?
    ensures r.Success? ==> |r.value| == |lines|
    ensures r.Success? ==> forall i :: 0 <= i < |lines| ==> BackfillLine(lines[i], audioKey, codec, audio) == Success(r.value[i])
    ensures r.Failure? ==> exists i :: 0 <= i < |lines| && BackfillLine(lines[i], audioKey, codec, audio) == Failure(r.error)
  {
    if lines == [] then
      Success([])
    else
      match BackfillLine(lines[0], audioKey, codec, audio)
      case Failure(e) => Failure(e)
      case Success(first) =>
        match BackfillAll(lines[1..], audioKey, codec, audio)
        case Failure(e) => Failure(e)
        case Success(rest) =>
          assert forall i :: 1 <= i < |lines| ==> lines[i] == lines[1..][i - 1];
          Success([first] + rest)
  }

  /** The order in which the pool's futures complete: n line indices below n, none twice. */
  ghost predicate IsCompletionOrder(order: seq<nat>, n: nat) {
    && |order| == n
    && (forall k :: 0 <= k < n ==> order[k] < n)
    && (forall a, b :: 0 <= a < b < n ==> order[a] != order[b])
  }

  /** `as_completed` yields every submitted future: a completion order holds every line index. */
  lemma CompletionOrderCoversEveryLine(order: seq<nat>, n: nat)
    requires IsCompletionOrder(order, n)
    ensures forall i :: 0 <= i < n ==> i in order
  {
    var done := set k | 0 <= k < n :: order[k];
    var all := Below(n);
    DistinctIndicesCount(order, n);
    assert done <= all;
    if done != all {
      var i :| i in all && i !in done;
      assert done <= all - {i};
      SubsetCount(done, all - {i});
    }
    forall i | 0 <= i < n ensures i in order {
      assert i in all;
    }
  }

  lemma {:induction false} DistinctIndicesCount(order: seq<nat>, m: nat)
    requires m <= |order|
    requires forall a, b :: 0 <= a < b < m ==> order[a] != order[b]
    ensures |set k | 0 <= k < m :: order[k]| == m
  {
    if m > 0 {
      DistinctIndicesCount(order, m - 1);
      var before := set k | 0 <= k < m - 1 :: order[k];
      assert (set k | 0 <= k < m :: order[k]) == before + {order[m - 1]};
      assert order[m - 1] !in before;
    }
  }

  /** The line indices 0 .. n-1. */
  function Below(n: nat): (r: set<nat>)
    ensures |r| == n
    ensures forall i :: i in r <==> 0 <= i < n
  {
    if n == 0 then {} else Below(n - 1) + {n - 1}
  }

  lemma {:induction false} SubsetCount(a: set<nat>, b: set<nat>)
    requires a <= b
    ensures |a| <= |b|
    decreases |b|
  {
    if a != {} {
      var x :| x in a;
      SubsetCount(a - {x}, b - {x});
    }
  }

  /** `min(multiprocessing.cpu_count(), 16)`. */
  function WorkerCount(cpuCount: nat): (w: nat)
    requires cpuCount >= 1
    ensures 1 <= w <= MaxWorkers && w <= cpuCount
    ensures w == cpuCount || w == MaxWorkers
  {
    if cpuCount < MaxWorkers then cpuCount else MaxWorkers
  }

  /** The scatter/gather of main: results are appended as the futures complete, in `order`, a
      worker's exception is re-raised by `future.result()`, and the list is sorted by index.
      Whatever the order, the outcome is `map(process_line, lines)` tagged with the indices. */
  method Gather(lines: seq<string>, audioKey: string, codec: JsonCodec, audio: AudioFiles, order: seq<nat>)
    returns (r: Result<seq<Tagged>>)
    requires IsCompletionOrder(order, |lines|)
    ensures r.Success? <==> BackfillAll(lines, audioKey, codec, audio).Success?
    ensures r.Failure? ==> exists i :: 0 <= i < |lines| && BackfillLine(lines[i], audioKey, codec, audio) == Failure(r.error)
    ensures r.Success? ==> |r.value| == |lines|
    ensures r.Success? ==> forall i :: 0 <= i < |lines| ==>
              r.value[i] == Tagged(i, BackfillAll(lines, audioKey, codec, audio).value[i])
  {
    var results: seq<Tagged> := [];
    var k := 0;
    while k < |order|
      invariant 0 <= k <= |order|
      invariant |results| == k
      invariant forall j :: 0 <= j < k ==> results[j].index == order[j]
      invariant forall j :: 0 <= j < k ==> IsResultFor(results[j], lines, audioKey, codec, audio)
    {
      var i := order[k];
      var out := ProcessLine(lines[i], audioKey, codec, audio);
      if out.Failure? {
        return Failure(out.error);
      }
      results := results + [Tagged(i, out.value)];
      k := k + 1;
    }
    SortRestoresInputOrder(results, lines, audioKey, codec, audio);
    r := Success(SortByIndex(results));
  }

  /** `e` is the result process_line gives for the input line at `e.index`. */
  ghost predicate IsResultFor(e: Tagged, lines: seq<string>, audioKey: string, codec: JsonCodec, audio: AudioFiles) {
    e.index < |lines| && BackfillLine(lines[e.index], audioKey, codec, audio) == Success(e.line)
  }

  /** One result per input line, in any order, sorts back into input order; and then every line
      has succeeded, so the sorted lines are `map(process_line, lines)`. */
  lemma SortRestoresInputOrder(results: seq<Tagged>, lines: seq<string>, audioKey: string, codec: JsonCodec, audio: AudioFiles)
    requires |results| == |lines|
    requires DistinctIndices(results)
    requires forall e :: e in results ==> IsResultFor(e, lines, audioKey, codec, audio)
    ensures BackfillAll(lines, audioKey, codec, audio).Success?
    ensures |SortByIndex(results)| == |lines|
    ensures forall i :: 0 <= i < |lines| ==>
              SortByIndex(results)[i] == Tagged(i, BackfillAll(lines, audioKey, codec, audio).value[i])
  {
    var sorted := SortByIndex(results);
    SortDistinctIsStrict(results);
    forall e | e in sorted ensures IsResultFor(e, lines, audioKey, codec, audio) {
      assert e in multiset(sorted);
    }
    SortedResultsAreInInputOrder(sorted, |lines|);
    forall i | 0 <= i < |lines|
      ensures BackfillLine(lines[i], audioKey, codec, audio) == Success(sorted[i].line)
    {
      assert sorted[i] in sorted;
    }
  }

  /** How a run of the script ends. */
  datatype Outcome = UsageError | InputNotFound(path: string) | Crashed(error: PyError) | Completed(output: string)

  /** The optional third argument, "wav" when absent. */
  function AudioKeyArgument(argv: seq<string>): string {
    if |argv| > 3 then argv[3] else DefaultAudioKey
  }

  /** main: check the arguments and the input file, backfill every line through the pool, and
      write the results in input order, one per line. `argv[0]` is the script name. */
  method Run(argv: seq<string>, cpuCount: nat, order: seq<nat>, codec: JsonCodec, audio: AudioFiles, disk: Disk)
    returns (outcome: Outcome, status: int)
    requires cpuCount >= 1
    requires |argv| >= 3 && argv[1] in disk.files ==> IsCompletionOrder(order, |disk.files[argv[1]]|)
    modifies disk
    ensures status == (if outcome.Completed? then 0 else 1)
    ensures outcome == UsageError <==> |argv| < 3
    ensures outcome.InputNotFound? <==> |argv| >= 3 && argv[1] !in old(disk.files)
    ensures outcome.InputNotFound? ==> outcome.path == argv[1]
    ensures outcome.Crashed? <==>
              (|argv| >= 3 && argv[1] in old(disk.files)
               && BackfillAll(old(disk.files)[argv[1]], AudioKeyArgument(argv), codec, audio).Failure?)
    ensures outcome.Crashed? ==>
              var lines := old(disk.files)[argv[1]];
              exists i :: 0 <= i < |lines| && BackfillLine(lines[i], AudioKeyArgument(argv), codec, audio) == Failure(outcome.error)
    ensures !outcome.Completed? ==> disk.files == old(disk.files)
    ensures outcome.Completed? ==> outcome.output == argv[2]
    ensures outcome.Completed? ==>
              argv[2] in disk.files && disk.files == old(disk.files)[argv[2] := disk.files[argv[2]]]
    ensures outcome.Completed? ==>
              var lines := old(disk.files)[argv[1]];
              var written := BackfillAll(lines, AudioKeyArgument(argv), codec, audio);
              && written.Success?
              && |disk.files[argv[2]]| == |lines|
              && forall i :: 0 <= i < |lines| ==> disk.files[argv[2]][i] == written.value[i] + "\n"
  {
    if |argv| < 3 {
      return UsageError, 1;
    }
    var inputPath, outputPath := argv[1], argv[2];
    var audioKey := AudioKeyArgument(argv);
    if inputPath !in disk.files {
      return InputNotFound(inputPath), 1;
    }
    var workers := WorkerCount(cpuCount);
    var lines := disk.files[inputPath];
    var gathered := Gather(lines, audioKey, codec, audio, order);
    if gathered.Failure? {
      return Crashed(gathered.error), 1;
    }
    var results := gathered.value;
    WriteResults(disk, outputPath, results);
    return Completed(outputPath), 0;
  }

  /** The write loop of main: opens the output for writing and writes each result's line
      followed by a newline, in list order. */
  method WriteResults(disk: Disk, path: string, results: seq<Tagged>)
    modifies disk
    ensures path in disk.files
    ensures disk.files == old(disk.files)[path := disk.files[path]]
    ensures |disk.files[path]| == |results|
    ensures forall i :: 0 <= i < |results| ==> disk.files[path][i] == results[i].line + "\n"
  {
    ghost var before := disk.files;
    ghost var written: seq<string> := [];
    disk.Create(path);
    var j := 0;
    while j < |results|
      invariant 0 <= j <= |results|
      invariant |written| == j
      invariant disk.files == before[path := written]
      invariant forall i :: 0 <= i < j ==> written[i] == results[i].line + "\n"
    {
      disk.Append(path, results[j].line + "\n");
      written := written + [results[j].line + "\n"];
      j := j + 1;
    }
  }

  /** A record whose duration is already positive comes back as it is, and no audio lookup is
      made: the result is the same whatever the audio files are. */
  lemma SkipLeavesRecordUntouched(record: map<string, Json>, audioKey: string, audio: AudioFiles, other: AudioFiles)
    requires HasDuration(record) == Success(true)
    ensures BackfillRecord(JObject(record), audioKey, audio) == Success(record)
    ensures BackfillRecord(JObject(record), audioKey, audio) == BackfillRecord(JObject(record), audioKey, other)
  {
  }

  /** The caller's key, when present, wins over every built-in key. */
  lemma AudioKeyWins(record: map<string, Json>, audioKey: string)
    requires audioKey in record
    ensures AudioPathOf(record, audioKey) == Some(Unwrap(record[audioKey]))
  {
  }

  /** With the default key, "wav" wins over "audio". */
  lemma WavBeatsAudioByDefault(record: map<string, Json>)
    requires "wav" in record && "audio" in record
    ensures AudioPathOf(record, DefaultAudioKey) == Some(Unwrap(record["wav"]))
  {
    AudioKeyWins(record, DefaultAudioKey);
  }

  /** Updating a key that is not among `keys` does not move the first present key. */
  lemma {:induction false} FirstPresentIgnoresOtherKeys(keys: seq<string>, record: map<string, Json>, k: string, v: Json)
    requires k !in keys
    ensures FirstPresent(keys, record[k := v]) == FirstPresent(keys, record)
  {
    if keys != [] {
      FirstPresentIgnoresOtherKeys(keys[1..], record, k, v);
    }
  }

  /** Once a candidate key is present, keys after it are never consulted: adding or changing any
      key other than it and the ones before it leaves the audio path as it was, even when the
      value found is empty or null. */
  lemma LaterKeysNotConsulted(record: map<string, Json>, audioKey: string, i: nat, k: string, v: Json)
    requires FirstPresent(CandidateKeys(audioKey), record) == Some(i)
    requires forall j :: 0 <= j <= i ==> CandidateKeys(audioKey)[j] != k
    ensures AudioPathOf(record[k := v], audioKey) == AudioPathOf(record, audioKey)
  {
  }

  /** An empty "wav" value is what the default key resolves to, so the record is marked with
      the sentinel even though "audio" names a readable file. */
  lemma EmptyFirstKeyGivesSentinel(audio: AudioFiles)
    requires audio.pathExists("a.wav") && audio.info(JString("a.wav")) == Some(2.0)
    ensures var record := map["wav" := JString(""), "audio" := JString("a.wav")];
            BackfillRecord(JObject(record), DefaultAudioKey, audio) == Success(record["duration" := JFloat(Sentinel)])
  {
    var record := map["wav" := JString(""), "audio" := JString("a.wav")];
    AudioKeyWins(record, DefaultAudioKey);
  }

  /** A readable file gives its duration and the other fields stay. */
  lemma ReadableAudioScenario(audio: AudioFiles)
    requires audio.pathExists("a.wav") && audio.info(JString("a.wav")) == Some(2.0)
    ensures var record := map["wav" := JString("a.wav"), "text" := JString("hi")];
            BackfillRecord(JObject(record), DefaultAudioKey, audio) == Success(record["duration" := JFloat(2.0)])
  {
    var record := map["wav" := JString("a.wav"), "text" := JString("hi")];
    AudioKeyWins(record, DefaultAudioKey);
  }

  /** A missing file gives the sentinel. */
  lemma MissingAudioScenario(audio: AudioFiles)
    requires !audio.pathExists("missing.wav")
    ensures var record := map["wav" := JString("missing.wav"), "text" := JString("x")];
            BackfillRecord(JObject(record), DefaultAudioKey, audio) == Success(record["duration" := JFloat(Sentinel)])
  {
    var record := map["wav" := JString("missing.wav"), "text" := JString("x")];
    AudioKeyWins(record, DefaultAudioKey);
  }

  /** An audio value `os.stat` cannot take, such as a non-empty list, an object without "path" or
      a non-zero float, makes process_line raise TypeError instead of writing a sentinel. */
  lemma UnstatablePathRaises(v: Json, audio: AudioFiles)
    requires Truthy(v)
    requires v.JArray? || (v.JObject? && "path" !in v.fields) || v.JFloat?
    ensures BackfillRecord(JObject(map["wav" := v]), DefaultAudioKey, audio) == Failure(TypeError)
  {
    AudioKeyWins(map["wav" := v], DefaultAudioKey);
  }

  /** The three shapes of that failure, written out. */
  lemma UnstatablePathExamples(audio: AudioFiles)
    ensures BackfillRecord(JObject(map["wav" := JArray([JString("a.wav")])]), DefaultAudioKey, audio) == Failure(TypeError)
    ensures BackfillRecord(JObject(map["wav" := JObject(map["sr" := JInt(16000)])]), DefaultAudioKey, audio) == Failure(TypeError)
    ensures BackfillRecord(JObject(map["wav" := JFloat(3.5)]), DefaultAudioKey, audio) == Failure(TypeError)
  {
    UnstatablePathRaises(JArray([JString("a.wav")]), audio);
    assert "sr" in map["sr" := JInt(16000)];
    UnstatablePathRaises(JObject(map["sr" := JInt(16000)]), audio);
    UnstatablePathRaises(JFloat(3.5), audio);
  }

  /** An integer audio value is taken as a file descriptor; one beyond the range of a C int makes
      `os.stat` raise OverflowError, which nothing catches. */
  lemma HugeDescriptorOverflows(audio: AudioFiles)
    ensures BackfillRecord(JObject(map["wav" := JInt(IntMax + 1)]), DefaultAudioKey, audio) == Failure(OverflowError)
  {
    AudioKeyWins(map["wav" := JInt(IntMax + 1)], DefaultAudioKey);
  }

  /** A line that is not JSON comes out stripped, not dropped. */
  lemma MalformedLinePassesThrough(line: string, audioKey: string, codec: JsonCodec, audio: AudioFiles)
    requires codec.loads(Strip(line)) == None
    ensures BackfillLine(line, audioKey, codec, audio) == Success(Strip(line))
  {
  }

  /** A blank line (which json.loads rejects) becomes an empty output line. */
  lemma BlankLineGivesEmptyLine(line: string, audioKey: string, codec: JsonCodec, audio: AudioFiles)
    requires codec.loads("") == None
    requires forall k :: 0 <= k < |line| ==> IsSpace(line[k])
    ensures BackfillLine(line, audioKey, codec, audio) == Success("")
  {
    StripRemovesSurroundingSpace(line);
  }

  /** Backfilling a backfilled record changes nothing, as long as the caller's key is not
      "duration" itself (which would make the written duration the audio path). */
  lemma RecordBackfillIdempotent(data: Json, audioKey: string, audio: AudioFiles)
    requires audioKey != "duration"
    requires BackfillRecord(data, audioKey, audio).Success?
    ensures var record := BackfillRecord(data, audioKey, audio).value;
            BackfillRecord(JObject(record), audioKey, audio) == Success(record)
  {
    var record := BackfillRecord(data, audioKey, audio).value;
    if HasDuration(data.fields) == Success(false) {
      var d := LookedUpDuration(AudioPathOf(data.fields, audioKey), audio).value;
      assert record == data.fields["duration" := JFloat(d)];
      FirstPresentIgnoresOtherKeys(CandidateKeys(audioKey), data.fields, "duration", JFloat(d));
      assert AudioPathOf(record, audioKey) == AudioPathOf(data.fields, audioKey);
      if d <= 0.0 {
        assert record["duration" := JFloat(d)] == record;
      }
    }
  }

  /** Running process_line on its own output gives the same line again, given that json.dumps
      output reads back to the value it came from. */
  lemma LineBackfillIdempotent(line: string, audioKey: string, codec: JsonCodec, audio: AudioFiles)
    requires audioKey != "duration"
    requires BackfillLine(line, audioKey, codec, audio).Success?
    requires codec.loads(Strip(line)).Some? ==>
               ReadsBack(codec, JObject(BackfillRecord(codec.loads(Strip(line)).value, audioKey, audio).value))
    ensures var out := BackfillLine(line, audioKey, codec, audio).value;
            BackfillLine(out, audioKey, codec, audio) == Success(out)
  {
    var out := BackfillLine(line, audioKey, codec, audio).value;
    match codec.loads(Strip(line))
    case None =>
      StripIdempotent(line);
    case Some(data) =>
      var record := BackfillRecord(data, audioKey, audio).value;
      assert out == codec.dumps(JObject(record));
      assert codec.loads(codec.dumps(JObject(record))) == Some(JObject(record));
      RecordBackfillIdempotent(data, audioKey, audio);
  }
}

=== FILE: index_sort.dfy ===
/** Sorting a list of `(index, line)` results by index, as `results.sort(key=lambda x: x[0])`
    does, and why the sort puts every result back at the position of its input line. */
module IndexSort {

  /** One gathered result: the index of the input line and the line produced for it. */
  datatype Tagged = Tagged(index: nat, line: string)

  ghost predicate SortedByIndex(s: seq<Tagged>) {
    forall a, b :: 0 <= a < b < |s| ==> s[a].index <= s[b].index
  }

  ghost predicate StrictlyIncreasing(s: seq<Tagged>) {
    forall a, b :: 0 <= a < b < |s| ==> s[a].index < s[b].index
  }

  /** No two results carry the same index. */
  ghost predicate DistinctIndices(s: seq<Tagged>) {
    forall a, b :: 0 <= a < b < |s| ==> s[a].index != s[b].index
  }

  /** Inserts `x` into a sorted list after every element whose index is smaller. */
  function Insert(x: Tagged, s: seq<Tagged>): (r: seq<Tagged>)
    requires SortedByIndex(s)
    ensures |r| == |s| + 1
    ensures multiset(r) == multiset(s) + multiset{x}
    ensures SortedByIndex(r)
  {
    if s == [] || x.index <= s[0].index then
      ConsSorted(x, s);
      [x] + s
    else
      var t := Insert(x, s[1..]);
      InsertedStaysAbove(x, s, t);
      ConsSorted(s[0], t);
      [s[0]] + t
  }

  lemma ConsSorted(y: Tagged, t: seq<Tagged>)
    requires SortedByIndex(t)
    requires t != [] ==> y.index <= t[0].index
    ensures SortedByIndex([y] + t)
  {
    var r := [y] + t;
    forall a, b | 0 <= a < b < |r| ensures r[a].index <= r[b].index {
      assert r[b] == t[b - 1];
      if a > 0 {
        assert r[a] == t[a - 1];
      }
    }
  }

  /** Every element of `t`, the tail of `s` with `x` inserted, is at least the head of `s`. */
  lemma InsertedStaysAbove(x: Tagged, s: seq<Tagged>, t: seq<Tagged>)
    requires s != [] && SortedByIndex(s) && s[0].index < x.index
    requires multiset(t) == multiset(s[1..]) + multiset{x}
    ensures t != [] ==> s[0].index <= t[0].index
    ensures multiset([s[0]] + t) == multiset(s) + multiset{x}
  {
    assert s == [s[0]] + s[1..];
    if t != [] && t[0] != x {
      assert t[0] in multiset(t);
      var k :| 0 <= k < |s[1..]| && s[1..][k] == t[0];
      assert s[k + 1] == t[0];
    }
  }

  /** Inserting an element whose index is new keeps the indices strictly increasing. */
  lemma {:induction false} InsertKeepsStrict(x: Tagged, s: seq<Tagged>)
    requires StrictlyIncreasing(s)
    requires forall e :: e in s ==> e.index != x.index
    ensures StrictlyIncreasing(Insert(x, s))
  {
    if s != [] && x.index > s[0].index {
      assert s == [s[0]] + s[1..];
      InsertKeepsStrict(x, s[1..]);
      var t := Insert(x, s[1..]);
      InsertedStaysStrictlyAbove(x, s, t);
      ConsStrict(s[0], t);
    }
  }

  /** As InsertedStaysAbove, with every index strictly above the head of `s`. */
  lemma InsertedStaysStrictlyAbove(x: Tagged, s: seq<Tagged>, t: seq<Tagged>)
    requires s != [] && StrictlyIncreasing(s) && s[0].index < x.index
    requires multiset(t) == multiset(s[1..]) + multiset{x}
    ensures t != [] ==> s[0].index < t[0].index
  {
    if t != [] && t[0] != x {
      assert t[0] in multiset(t);
      var k :| 0 <= k < |s[1..]| && s[1..][k] == t[0];
      assert s[k + 1] == t[0];
    }
  }

  lemma ConsStrict(y: Tagged, t: seq<Tagged>)
    requires StrictlyIncreasing(t)
    requires t != [] ==> y.index < t[0].index
    ensures StrictlyIncreasing([y] + t)
  {
    var r := [y] + t;
    forall a, b | 0 <= a < b < |r| ensures r[a].index < r[b].index {
      assert r[b] == t[b - 1];
      if a > 0 {
        assert r[a] == t[a - 1];
      }
    }
  }

  /** `list.sort(key=index)`: a permutation of the input, in non-decreasing index order. */
  function SortByIndex(s: seq<Tagged>): (r: seq<Tagged>)
    ensures |r| == |s|
    ensures multiset(r) == multiset(s)
    ensures SortedByIndex(r)
  {
    if s == [] then
      []
    else
      assert s == [s[0]] + s[1..];
      Insert(s[0], SortByIndex(s[1..]))
  }

  /** Sorting results whose indices are distinct orders them strictly by index. */
  lemma {:induction false} SortDistinctIsStrict(s: seq<Tagged>)
    requires DistinctIndices(s)
    ensures StrictlyIncreasing(SortByIndex(s))
  {
    if s != [] {
      assert s == [s[0]] + s[1..];
      var t := SortByIndex(s[1..]);
      SortDistinctIsStrict(s[1..]);
      forall e | e in t ensures e.index != s[0].index {
        assert e in multiset(t);
        assert e in s[1..];
      }
      InsertKeepsStrict(s[0], t);
    }
  }

  /** n results with distinct indices below n, once sorted, sit each at the position equal to
      its index: the sort undoes any completion order. */
  lemma {:induction false} SortedResultsAreInInputOrder(s: seq<Tagged>, n: nat)
    requires |s| == n
    requires StrictlyIncreasing(s)
    requires forall e :: e in s ==> e.index < n
    ensures forall i :: 0 <= i < n ==> s[i].index == i
  {
    forall i | 0 <= i < n ensures s[i].index == i {
      AtLeastPosition(s, i);
      AtMostPosition(s, n, i);
    }
  }

  lemma {:induction false} AtLeastPosition(s: seq<Tagged>, i: nat)
    requires i < |s|
    requires StrictlyIncreasing(s)
    ensures s[i].index >= i
  {
    if i > 0 {
      AtLeastPosition(s, i - 1);
    }
  }

  lemma {:induction false} AtMostPosition(s: seq<Tagged>, n: nat, i: nat)
    requires i < |s| == n
    requires StrictlyIncreasing(s)
    requires forall e :: e in s ==> e.index < n
    ensures s[i].index <= i
    decreases n - i
  {
    if i < n - 1 {
      AtMostPosition(s, n, i + 1);
    } else {
      assert s[i] in s;
    }
  }
}

=== FILE: manifest.dfy ===
/** Values, text helpers and the file store shared by the two JSON-Lines manifest scripts. */
module Manifest {

  datatype Option<T> = None | Some(value: T)

  /** The Python exceptions that the scripts raise or catch. */
  datatype PyError = JsonDecodeError | TypeError | OverflowError

  datatype Result<T> = Success(value: T) | Failure(error: PyError)

  /** A value as `json.loads` returns it: a number without fraction or exponent is an `int`, any
      other a `float` (kept as an exact real); an object is a finite map from keys to values (the
      insertion order of a Python dict is not kept). */
  datatype Json =
    | JNull
    | JBool(b: bool)
    | JInt(i: int)
    | JFloat(f: real)
    | JString(s: string)
    | JArray(items: seq<Json>)
    | JObject(fields: map<string, Json>)

  /** Python truthiness of a decoded value (`if value:`): the falsy values are exactly null,
      false, zero, the empty string, the empty list and the empty object. */
  predicate Truthy(v: Json)
    ensures !Truthy(v) <==>
              v in {JNull, JBool(false), JInt(0), JFloat(0.0), JString(""), JArray([]), JObject(map[])}
  {
    match v
    case JNull => false
    case JBool(b) => b
    case JInt(i) => i != 0
    case JFloat(f) => f != 0.0
    case JString(s) => s != ""
    case JArray(items) => items != []
    case JObject(fields) => fields != map[]
  }

  /** `json.loads` and `json.dumps(..., ensure_ascii=False)`, left abstract: `loads` gives None
      where Python raises JSONDecodeError. */
  datatype JsonCodec = JsonCodec(loads: string -> Option<Json>, dumps: Json -> string)

  /** `json.dumps` writes `v` on one line without surrounding whitespace, and `json.loads` reads
      that line back to `v`: what the JSON library guarantees of a value it serialises, floats
      included, as long as each float is one it can print exactly. */
  ghost predicate ReadsBack(codec: JsonCodec, v: Json) {
    codec.loads(codec.dumps(v)) == Some(v) && Strip(codec.dumps(v)) == codec.dumps(v)
  }

  /** The characters Python's `str.isspace` accepts, which `str.strip()` removes. */
  predicate IsSpace(c: char) {
    || c == ' '
    || '\t' <= c <= '\r'
    || '\U{1C}' <= c <= '\U{1F}'
    || c == '\U{85}'
    || c == '\U{A0}'
    || c == '\U{1680}'
    || '\U{2000}' <= c <= '\U{200A}'
    || c == '\U{2028}'
    || c == '\U{2029}'
    || c == '\U{202F}'
    || c == '\U{205F}'
    || c == '\U{3000}'
  }

  /** The suffix of `s` left after its leading whitespace. */
  function TrimStart(s: string): string
    decreases |s|
  {
    if s != [] && IsSpace(s[0]) then TrimStart(s[1..]) else s
  }

  /** TrimStart removes a run of whitespace from the front and stops at the first other character. */
  lemma {:induction false} TrimStartDropsLeadingSpace(s: string)
    ensures var r := TrimStart(s);
            && |r| <= |s| && r == s[|s| - |r|..]
            && (forall k :: 0 <= k < |s| - |r| ==> IsSpace(s[k]))
            && (r != [] ==> !IsSpace(r[0]))
    decreases |s|
  {
    if s != [] && IsSpace(s[0]) {
      TrimStartDropsLeadingSpace(s[1..]);
    }
  }

  /** The prefix of `s` left after its trailing whitespace. */
  function TrimEnd(s: string): string
    decreases |s|
  {
    if s != [] && IsSpace(s[|s| - 1]) then TrimEnd(s[..|s| - 1]) else s
  }

  /** TrimEnd removes a run of whitespace from the back and stops at the last other character. */
  lemma {:induction false} TrimEndDropsTrailingSpace(s: string)
    ensures var r := TrimEnd(s);
            && |r| <= |s| && r == s[..|r|]
            && (forall k :: |r| <= k < |s| ==> IsSpace(s[k]))
            && (r != [] ==> !IsSpace(r[|r| - 1]))
    decreases |s|
  {
    if s != [] && IsSpace(s[|s| - 1]) {
      TrimEndDropsTrailingSpace(s[..|s| - 1]);
    }
  }

  /** `str.strip()`: never longer than the string, and a non-empty result starts and ends with a
      character that is not whitespace. */
  function Strip(s: string): (r: string)
    ensures |r| <= |s|
    ensures r != [] ==> !IsSpace(r[0]) && !IsSpace(r[|r| - 1])
  {
    var t := TrimStart(s);
    TrimStartDropsLeadingSpace(s);
    TrimEndDropsTrailingSpace(t);
    var r := TrimEnd(t);
    assert r != [] ==> r[0] == t[0];
    r
  }

  /** A blank string strips to "", any other keeps the part between its first and last
      non-whitespace characters. */
  lemma StripRemovesSurroundingSpace(s: string)
    ensures var r := Strip(s);
            && |r| <= |s|
            && |r| <= |TrimStart(s)| <= |s|
            && r == s[|s| - |TrimStart(s)|..|s| - |TrimStart(s)| + |r|]
            && (forall k :: |s| - |TrimStart(s)| + |r| <= k < |s| ==> IsSpace(s[k]))
            && (r == [] <==> forall k :: 0 <= k < |s| ==> IsSpace(s[k]))
            && (r != [] ==> !IsSpace(r[0]) && !IsSpace(r[|r| - 1]))
  {
    var t := TrimStart(s);
    TrimStartDropsLeadingSpace(s);
    TrimEndDropsTrailingSpace(t);
    var r := TrimEnd(t);
    assert r != [] ==> r[0] == t[0];
    if r == [] {
      assert t == [];
    } else {
      assert !IsSpace(s[|s| - |t|]);
    }
  }

  /** A string without surrounding whitespace is its own strip. */
  lemma StripKeepsStripped(s: string)
    requires s == [] || (!IsSpace(s[0]) && !IsSpace(s[|s| - 1]))
    ensures Strip(s) == s
  {
    if s != [] {
      assert TrimStart(s) == s;
      assert TrimEnd(s) == s;
    }
  }

  /** Stripping twice is stripping once. */
  lemma StripIdempotent(s: string)
    ensures Strip(Strip(s)) == Strip(s)
  {
    StripRemovesSurroundingSpace(s);
    StripKeepsStripped(Strip(s));
  }

  /** `t in s` for Python strings: `t` occurs in `s` as a contiguous piece. */
  predicate ContainsSubstring(s: string, t: string) {
    exists i | 0 <= i <= |s| - |t| :: OccursAt(s, t, i)
  }

  predicate OccursAt(s: string, t: string, i: nat)
    requires i + |t| <= |s|
  {
    s[i..i + |t|] == t
  }

  /** `t in s` holds exactly when `t` occurs at some position of `s`, which needs `s` to be at
      least as long as `t`. */
  lemma SubstringOccurrence(s: string, t: string, i: nat)
    ensures ContainsSubstring(s, t) ==> |t| <= |s|
    ensures i + |t| <= |s| && s[i..i + |t|] == t ==> ContainsSubstring(s, t)
  {
    if i + |t| <= |s| && s[i..i + |t|] == t {
      assert OccursAt(s, t, i);
    }
  }

  /** Writing a key twice leaves only the second value. */
  lemma OverwriteTwice<K, V>(m: map<K, V>, k: K, first: V, second: V)
    ensures m[k := first][k := second] == m[k := second]
  {
  }

  /** The manifest files on disk: each path maps to the lines `readlines()` returns, every line
      with its terminating newline. A manifest path is in `files` exactly when `os.path.exists`
      holds of it; audio files are not kept here. */
  class Disk {
    var files: map<string, seq<string>>

    /** `open(path, "w")`: creates the file or truncates it. */
    method Create(path: string)
      modifies this
      ensures files == old(files)[path := []]
    {
      files := files[path := []];
    }

    /** `f.write(chunk)` on a file opened for writing, where `chunk` is one line. */
    method Append(path: string, chunk: string)
      requires path in files
      modifies this
      ensures files == old(files)[path := old(files)[path] + [chunk]]
    {
      files := files[path := files[path] + [chunk]];
    }
  }
}

=== FILE: merge_jsonl.dfy ===
/** The manifest merge of scripts/merge_jsonl.py: the non-blank lines of two JSON-Lines manifests
    are parsed, have their "audio" path made absolute, and are written one after the other to
    one output manifest, while the entries of each file are counted. */
module MergeJsonl {
  import opened Manifest

  /** `os.path.abspath` on a string, left abstract. */
  type AbsPath = string -> string

  /** The entries of a manifest: its lines stripped, blank ones left out, in file order. */
  function Entries(lines: seq<string>): (r: seq<string>)
    ensures |r| <= |lines|
    ensures forall i :: 0 <= i < |r| ==> r[i] != ""
  {
    if lines == [] then
      []
    else
      var last := Strip(lines[|lines| - 1]);
      Entries(lines[..|lines| - 1]) + (if last == "" then [] else [last])
  }

  /** The entries of two manifests read one after the other are the entries of each. */
  lemma {:induction false} EntriesOfConcatenation(a: seq<string>, b: seq<string>)
    ensures Entries(a + b) == Entries(a) + Entries(b)
  {
    if b == [] {
      assert a + b == a;
    } else {
      assert (a + b)[..|a + b| - 1] == a + b[..|b| - 1];
      EntriesOfConcatenation(a, b[..|b| - 1]);
    }
  }

  /** A blank line, wherever it stands, contributes nothing. */
  lemma BlankLineSkipped(a: seq<string>, line: string, b: seq<string>)
    requires Strip(line) == ""
    ensures Entries(a + [line] + b) == Entries(a + b)
  {
    assert [line][..0] == [];
    assert Entries([line]) == [];
    EntriesOfConcatenation(a, [line]);
    EntriesOfConcatenation(a + [line], b);
    EntriesOfConcatenation(a, b);
  }

  /** `if "audio" in entry: entry["audio"] = os.path.abspath(entry["audio"])`. On an object only
      "audio" changes, and only when present; `abspath` raises TypeError on a non-string. On a
      list `in` is membership and on a string it is substring search, and a hit makes the
      subscript raise TypeError; on a number, a boolean or null `in` itself raises. */
  function RewriteAudio(entry: Json, abspath: AbsPath): (r: Result<Json>)
    ensures r.Failure? ==> r.error == TypeError
    ensures entry.JObject? && "audio" !in entry.fields ==> r == Success(entry)
    ensures entry.JObject? && "audio" in entry.fields ==>
              (r.Success? <==> entry.fields["audio"].JString?)
    ensures r.Success? && entry.JObject? ==>
              && r.value.JObject?
              && r.value.fields.Keys == entry.fields.Keys
              && (forall k :: k in entry.fields && k != "audio" ==> r.value.fields[k] == entry.fields[k])
              && ("audio" in entry.fields ==> r.value.fields["audio"] == JString(abspath(entry.fields["audio"].s)))
    ensures r.Success? && !entry.JObject? ==> r == Success(entry)
    ensures entry.JNull? || entry.JBool? || entry.JInt? || entry.JFloat? ==> r.Failure?
    ensures entry.JArray? ==> (r.Failure? <==> JString("audio") in entry.items)
    ensures entry.JString? ==> (r.Failure? <==> ContainsSubstring(entry.s, "audio"))
  {
    match entry
    case JObject(fields) =>
      if "audio" !in fields then
        Success(entry)
      else if fields["audio"].JString? then
        Success(JObject(fields["audio" := JString(abspath(fields["audio"].s))]))
      else
        Failure(TypeError)
    case JArray(items) =>
      if JString("audio") in items then Failure(TypeError) else Success(entry)
    case JString(s) =>
      if ContainsSubstring(s, "audio") then Failure(TypeError) else Success(entry)
    case _ =>
      Failure(TypeError)
  }

  /** The line written for one entry, newline included; json.loads raises JSONDecodeError on a
      non-blank line that is not JSON, and nothing catches it. */
  function ConvertEntry(entry: string, codec: JsonCodec, abspath: AbsPath): (r: Result<string>)
    ensures codec.loads(entry).None? ==> r == Failure(JsonDecodeError)
    ensures codec.loads(entry).Some? ==>
              var rewritten := RewriteAudio(codec.loads(entry).value, abspath);
              && (r.Success? <==> rewritten.Success?)
              && (r.Success? ==> r.value == codec.dumps(rewritten.value) + "\n")
              && (r.Failure? ==> r.error == TypeError)
    ensures r.Success? ==> |r.value| > 0 && r.value[|r.value| - 1] == '\n'
  {
    match codec.loads(entry)
    case None => Failure(JsonDecodeError)
    case Some(v) =>
      match RewriteAudio(v, abspath)
      case Failure(e) => Failure(e)
      case Success(w) => Success(codec.dumps(w) + "\n")
  }

  /** The conversion of one entry, as a function value that a pass applies to every entry. */
  function Converter(codec: JsonCodec, abspath: AbsPath): string -> Result<string> {
    entry => ConvertEntry(entry, codec, abspath)
  }

  /** What one pass over an input writes, and the exception that ended it early, if any. */
  datatype Pass = Pass(written: seq<string>, error: Option<PyError>)

  /** One pass over the lines of an input: blank lines are skipped, every entry is converted and
      written in order, and the first entry that raises ends the pass. */
  function ConvertFile(lines: seq<string>, convert: string -> Result<string>): (p: Pass)
    ensures |p.written| <= |lines|
    decreases |lines|, 1
  {
    if lines == [] then Pass([], None) else ConvertLast(lines, convert)
  }

  /** A pass over non-empty lines: the pass over all but the last, then the last line. Kept apart
      from ConvertFile so that a pass is unfolded one line at a time. */
  function ConvertLast(lines: seq<string>, convert: string -> Result<string>): (p: Pass)
    requires lines != []
    ensures |p.written| <= |lines|
    decreases |lines|, 0
  {
    Step(ConvertFile(lines[..|lines| - 1], convert), lines[|lines| - 1], convert)
  }

  /** One more line of a pass: nothing happens once the pass has raised or when the line is
      blank; otherwise the stripped line is converted and written, or raises. */
  function Step(before: Pass, line: string, convert: string -> Result<string>): (p: Pass)
    ensures |p.written| <= |before.written| + 1
  {
    var entry := Strip(line);
    if before.error.Some? || entry == "" then
      before
    else
      match convert(entry)
      case Failure(e) => Pass(before.written, Some(e))
      case Success(out) => Pass(before.written + [out], None)
  }

  /** What a pass over one input writes, in terms of that input's entries: the conversions of
      the leading entries, in order; all of them unless an entry raises, and then exactly those
      before the first entry that raises, with that entry's error. */
  ghost predicate WritesLeading(p: Pass, entries: seq<string>, convert: string -> Result<string>) {
    && |p.written| <= |entries|
    && (forall i :: 0 <= i < |p.written| ==> convert(entries[i]) == Success(p.written[i]))
    && (p.error.None? ==> |p.written| == |entries|)
    && (p.error.Some? ==> |p.written| < |entries| && convert(entries[|p.written|]) == Failure(p.error.value))
  }

  /** A pass writes the conversions of the leading entries of its input, in order; it writes all
      of them unless some entry raises, and then it stops exactly at the first such entry. */
  lemma {:induction false} PassWritesLeadingEntries(lines: seq<string>, convert: string -> Result<string>)
    ensures WritesLeading(ConvertFile(lines, convert), Entries(lines), convert)
  {
    if lines != [] {
      var init := lines[..|lines| - 1];
      PassWritesLeadingEntries(init, convert);
      var entry := Strip(lines[|lines| - 1]);
      assert Entries(lines) == Entries(init) + (if entry == "" then [] else [entry]);
    }
  }

  /** Once a pass has raised, the lines after the failing one change nothing. */
  lemma {:induction false} FailureIsFinal(lines: seq<string>, i: nat, convert: string -> Result<string>)
    requires i <= |lines|
    requires ConvertFile(lines[..i], convert).error.Some?
    ensures ConvertFile(lines, convert) == ConvertFile(lines[..i], convert)
    decreases |lines| - i
  {
    if i < |lines| {
      assert lines[..i + 1][..i] == lines[..i];
      FailureIsFinal(lines, i + 1, convert);
    } else {
      assert lines[..i] == lines;
    }
  }

  /** The pass over `first` followed, if it did not raise, by the pass over `second`. */
  function Then(first: Pass, second: Pass): Pass {
    if first.error.Some? then first else Pass(first.written + second.written, second.error)
  }

  /** Running the next line after two passes is running it after the second. */
  lemma ThenStep(first: Pass, second: Pass, line: string, convert: string -> Result<string>)
    ensures Then(first, Step(second, line, convert)) == Step(Then(first, second), line, convert)
  {
    if first.error.None? && second.error.None? && Strip(line) != "" {
      match convert(Strip(line))
      case Failure(e) =>
      case Success(out) =>
        assert first.written + (second.written + [out]) == (first.written + second.written) + [out];
    }
  }

  /** A pass over two manifests read one after the other is the pass over the first followed by
      the pass over the second. */
  lemma {:induction false} PassOverConcatenation(lines1: seq<string>, lines2: seq<string>, convert: string -> Result<string>)
    ensures ConvertFile(lines1 + lines2, convert) == Then(ConvertFile(lines1, convert), ConvertFile(lines2, convert))
  {
    if lines2 == [] {
      assert lines1 + lines2 == lines1;
    } else {
      var shorter := lines2[..|lines2| - 1];
      var last := lines2[|lines2| - 1];
      var whole := lines1 + lines2;
      assert whole[..|whole| - 1] == lines1 + shorter;
      assert whole[|whole| - 1] == last;
      PassOverConcatenation(lines1, shorter, convert);
      ThenStep(ConvertFile(lines1, convert), ConvertFile(shorter, convert), last, convert);
    }
  }

  /** The merged output and what merge_jsonl_files returns or raises. */
  datatype Counts = Counts(file1: nat, file2: nat, total: nat)
  datatype Merged = Merged(written: seq<string>, result: Result<Counts>)

  /** merge_jsonl_files as a function: the pass over file 1, then, if it did not raise, the pass
      over file 2, with the number of lines each wrote. `convert` is the conversion of one entry,
      `Converter(codec, abspath)` in the program. */
  function Merge(lines1: seq<string>, lines2: seq<string>, convert: string -> Result<string>): (m: Merged)
    ensures m.result.Success? ==>
              m.result.value.total == m.result.value.file1 + m.result.value.file2 == |m.written|
    ensures |m.written| <= |lines1| + |lines2|
  {
    var p1 := ConvertFile(lines1, convert);
    var p2 := ConvertFile(lines2, convert);
    var p := Then(p1, p2);
    Merged(p.written, if p.error.Some? then Failure(p.error.value) else Success(Counts(|p1.written|, |p2.written|, |p.written|)))
  }

  /** Two passes, the second run only if the first did not raise, succeed exactly when every
      entry of both inputs converts; they then write every conversion in order, and each pass
      writes one line per entry of its input. Otherwise they stopped at the first entry that
      raises, with its error. */
  lemma ThenWritesAll(p1: Pass, p2: Pass, e1: seq<string>, e2: seq<string>, convert: string -> Result<string>)
    requires WritesLeading(p1, e1, convert)
    requires WritesLeading(p2, e2, convert)
    ensures var p := Then(p1, p2);
            var all := e1 + e2;
            && (p.error.None? <==> forall i :: 0 <= i < |all| ==> convert(all[i]).Success?)
            && (p.error.None? ==>
                  && |p1.written| == |e1|
                  && |p2.written| == |e2|
                  && forall i :: 0 <= i < |all| ==> convert(all[i]) == Success(p.written[i]))
            && (p.error.Some? ==> |p.written| < |all| && convert(all[|p.written|]) == Failure(p.error.value))
  {
    var all := e1 + e2;
    if p1.error.Some? {
      assert all[|p1.written|] == e1[|p1.written|];
    } else if p2.error.Some? {
      assert all[|p1.written| + |p2.written|] == e2[|p2.written|];
    } else {
      var written := p1.written + p2.written;
      forall i | 0 <= i < |all| ensures convert(all[i]) == Success(written[i]) {
        if i >= |p1.written| {
          assert all[i] == e2[i - |p1.written|];
        }
      }
    }
  }

  /** The merge succeeds exactly when every entry of both files converts; it then writes the
      conversions of all entries of file 1 followed by all of file 2, and reports as the counts
      the number of entries of each file and their sum. A merge that raises wrote the entries
      before the first one that raises, and raises that entry's error. */
  lemma MergeCountsEntries(lines1: seq<string>, lines2: seq<string>, codec: JsonCodec, abspath: AbsPath)
    ensures var m := Merge(lines1, lines2, Converter(codec, abspath));
            var all := Entries(lines1) + Entries(lines2);
            && (m.result.Success? <==> forall i :: 0 <= i < |all| ==> ConvertEntry(all[i], codec, abspath).Success?)
            && (m.result.Success? ==>
                  && m.result.value.file1 == |Entries(lines1)|
                  && m.result.value.file2 == |Entries(lines2)|
                  && m.result.value.total == m.result.value.file1 + m.result.value.file2 == |m.written|
                  && forall i :: 0 <= i < |all| ==> ConvertEntry(all[i], codec, abspath) == Success(m.written[i]))
            && (m.result.Failure? ==>
                  |m.written| < |all| && ConvertEntry(all[|m.written|], codec, abspath) == Failure(m.result.error))
  {
    var convert := Converter(codec, abspath);
    PassWritesLeadingEntries(lines1, convert);
    PassWritesLeadingEntries(lines2, convert);
    ThenWritesAll(ConvertFile(lines1, convert), ConvertFile(lines2, convert), Entries(lines1), Entries(lines2), convert);
    var m := Merge(lines1, lines2, convert);
    if m.result.Failure? {
      assert ConvertEntry((Entries(lines1) + Entries(lines2))[|m.written|], codec, abspath).Failure?;
    }
  }

  /** Merging two manifests writes what one pass over their concatenation writes, and raises
      exactly when that pass does. */
  lemma MergeIsPassOverConcatenation(lines1: seq<string>, lines2: seq<string>, codec: JsonCodec, abspath: AbsPath)
    ensures var m := Merge(lines1, lines2, Converter(codec, abspath));
            var p := ConvertFile(lines1 + lines2, Converter(codec, abspath));
            m.written == p.written && (m.result.Failure? <==> p.error.Some?)
  {
    PassOverConcatenation(lines1, lines2, Converter(codec, abspath));
  }

  /** One of the two loops of merge_jsonl_files: strip each line, skip it if blank, convert it
      (parse it, make its "audio" absolute and serialise it), write it and count it. Returns the
      counter and the exception that ended the loop early, if any. */
  method CopyEntries(lines: seq<string>, disk: Disk, outputPath: string, total: nat, convert: string -> Result<string>)
    returns (newTotal: nat, error: Option<PyError>)
    requires outputPath in disk.files
    modifies disk
    ensures var p := ConvertFile(lines, convert);
            && disk.files == old(disk.files)[outputPath := old(disk.files)[outputPath] + p.written]
            && error == p.error
            && newTotal == total + |p.written|
  {
    ghost var start := disk.files[outputPath];
    ghost var done := Pass([], None);
    newTotal, error := total, None;
    var i := 0;
    assert lines[..0] == [];
    assert start + [] == start;
    while i < |lines| && error.None?
      invariant 0 <= i <= |lines|
      invariant done == ConvertFile(lines[..i], convert)
      invariant error == done.error
      invariant disk.files == old(disk.files)[outputPath := start + done.written]
      invariant newTotal == total + |done.written|
    {
      assert ConvertFile(lines[..i + 1], convert) == Step(done, lines[i], convert) by {
        assert lines[..i + 1][..i] == lines[..i];
      }
      var line := Strip(lines[i]);
      if line != "" {
        var converted := convert(line);
        if converted.Failure? {
          error := Some(converted.error);
        } else {
          disk.Append(outputPath, converted.value);
          assert start + done.written + [converted.value] == start + (done.written + [converted.value]);
          OverwriteTwice(old(disk.files), outputPath, start + done.written, start + (done.written + [converted.value]));
          newTotal := newTotal + 1;
        }
      }
      done := Step(done, lines[i], convert);
      i := i + 1;
    }
    if error.Some? {
      FailureIsFinal(lines, i, convert);
    } else {
      assert lines[..|lines|] == lines;
    }
  }

  /** The two loops of merge_jsonl_files: copy the entries of file 1, then, unless that raised,
      those of file 2, appending to the open output; then report the counts. */
  method CopyBothFiles(lines1: seq<string>, lines2: seq<string>, disk: Disk, outputPath: string, convert: string -> Result<string>)
    returns (r: Result<Counts>)
    requires outputPath in disk.files
    modifies disk
    ensures var m := Merge(lines1, lines2, convert);
            disk.files == old(disk.files)[outputPath := old(disk.files)[outputPath] + m.written] && r == m.result
  {
    ghost var start := disk.files[outputPath];
    var total, error := CopyEntries(lines1, disk, outputPath, 0, convert);
    var count1 := total;
    if error.None? {
      ghost var written1 := disk.files[outputPath];
      total, error := CopyEntries(lines2, disk, outputPath, total, convert);
      OverwriteTwice(old(disk.files), outputPath, written1, disk.files[outputPath]);
      assert written1 + ConvertFile(lines2, convert).written == start + Merge(lines1, lines2, convert).written;
      r := if error.Some? then Failure(error.value) else Success(Counts(count1, total - count1, total));
    } else {
      r := Failure(error.value);
    }
  }

  /** merge_jsonl_files: open the output for writing, copy the entries of file 1 and then those
      of file 2, and report the counts. An exception leaves what was written so far. Opening the
      output truncates it before file 1 is read, so when the output is file 1 the first pass
      sees an empty file. */
  method MergeJsonlFiles(path1: string, path2: string, outputPath: string, codec: JsonCodec, abspath: AbsPath, disk: Disk)
    returns (r: Result<Counts>)
    requires path1 in disk.files && path2 in disk.files
    requires outputPath != path2
    modifies disk
    ensures var lines1 := if outputPath == path1 then [] else old(disk.files)[path1];
            var m := Merge(lines1, old(disk.files)[path2], Converter(codec, abspath));
            disk.files == old(disk.files)[outputPath := m.written] && r == m.result
  {
    disk.Create(outputPath);
    assert disk.files[path2] == old(disk.files)[path2];
    ghost var m := Merge(disk.files[path1], disk.files[path2], Converter(codec, abspath));
    r := CopyBothFiles(disk.files[path1], disk.files[path2], disk, outputPath, Converter(codec, abspath));
    assert [] + m.written == m.written;
    OverwriteTwice(old(disk.files), outputPath, [], m.written);
  }

  /** Writing the merge over file 1 leaves only the conversions of file 2 in it, and counts no
      entry for file 1. */
  lemma OutputOverFirstInput(lines2: seq<string>, codec: JsonCodec, abspath: AbsPath)
    ensures var m := Merge([], lines2, Converter(codec, abspath));
            && m.written == ConvertFile(lines2, Converter(codec, abspath)).written
            && (m.result.Success? ==> m.result.value.file1 == 0 && m.result.value.file2 == m.result.value.total)
  {
    assert [] + ConvertFile(lines2, Converter(codec, abspath)).written == ConvertFile(lines2, Converter(codec, abspath)).written;
  }

  /** How main ends: an input is missing, or the merge ran (and returned or raised). */
  datatype MergeOutcome = MissingInput(path: string) | Ran(result: Result<Counts>)

  /** main: stop, writing nothing, if either input does not exist; otherwise merge. */
  method RunMerge(path1: string, path2: string, outputPath: string, codec: JsonCodec, abspath: AbsPath, disk: Disk)
    returns (outcome: MergeOutcome)
    requires path1 in disk.files && path2 in disk.files ==> outputPath != path2
    modifies disk
    ensures path1 !in old(disk.files) ==> outcome == MissingInput(path1)
    ensures path1 in old(disk.files) && path2 !in old(disk.files) ==> outcome == MissingInput(path2)
    ensures outcome.MissingInput? ==> disk.files == old(disk.files)
    ensures path1 in old(disk.files) && path2 in old(disk.files) ==>
              var lines1 := if outputPath == path1 then [] else old(disk.files)[path1];
              var m := Merge(lines1, old(disk.files)[path2], Converter(codec, abspath));
              outcome == Ran(m.result) && disk.files == old(disk.files)[outputPath := m.written]
  {
    if path1 !in disk.files {
      return MissingInput(path1);
    }
    if path2 !in disk.files {
      return MissingInput(path2);
    }
    var result := MergeJsonlFiles(path1, path2, outputPath, codec, abspath, disk);
    return Ran(result);
  }
}
